=== FILE: README.md ===
# YT Media Downloader — a Dafny model of its data handling

The application lets a user paste a video URL, pick a quality and download
the media as MP3 audio or MP4 video. Everything except a small amount of data
handling in `main.py` is page layout or calls into `yt_dlp`, Streamlit and
the filesystem. This project models that data handling as pure functions over
immutable values and proves what it guarantees:

- **Format catalogue** (`list_formats`). In audio mode (`media == "MP3"`) it
  keeps the audio-only format records. It stable-sorts them by descending
  bitrate, with a missing bitrate counting as 0. It labels each one
  `"<format_id> - <abr>kbps"`. In any other mode it lists the distinct
  non-zero heights, largest first, as decimal strings.
- **Choice decoding** (in `main`). The chosen label is split on spaces and
  its first field becomes the value passed to the download.
- **Progress hook** (the inner `hook` of `create_progress_hook`). It picks a
  total that is never zero. It computes a whole-number percentage and caps
  the bar value at 100.
- **Download** (`download_media_file`). It builds the engine options for the
  media kind. It runs the engine, which is a parameter here. It then delivers
  the first non-empty file of the scratch directory, or fails with
  `"Downloaded file empty."`.

Modules: `Wrappers` (Option/Result), `Seqs` (the list-comprehension filter),
`Decimal` (`str(n)` and its inverse), `Formats` (the format record),
`AbrSort` (the stable bitrate sort), `Heights` (height de-duplication),
`Catalogue` (`list_formats` and choice decoding), `Progress` (the hook) and
`Download` (`download_media_file`).

Behaviour of `main.py` worth noting:
- Audio labels are `"<format_id> - <abr>kbps"`. They are turned back into
  an id by splitting at the first space.
- The video selector is `bestvideo[height=<h>]+bestaudio/best`. It pins
  `height=` exactly; it is not an upper bound.
- The `finished` status only sets a text line. It does not move the bar.
- The upload date is shown as delivered, without reformatting.
- An empty option list is not replaced by a fallback option.

## Model

| member | source | states |
|---|---|---|
| Seqs.Filter | main.py:72 | the comprehension never lengthens the list |
| Seqs.FilterCounts | main.py:72 | the comprehension keeps exactly the elements satisfying the condition, each as often as in the input, and no other element |
| Seqs.FilterSingleton | main.py:72 | a one-element list keeps its element exactly when it satisfies the condition |
| Seqs.FilterAppend | main.py:72 | filtering a concatenation filters each part in turn, so kept elements stay in input order |
| Catalogue.AudioFormats | main.py:72 | every audio-only record occurs in the audio list exactly as often as in `formats`; no other record occurs |
| Catalogue.AudioFormatsKeepOrder | main.py:72 | the audio list of a concatenation is the audio list of each part in turn, and a single record is kept exactly when it is audio-only: the audio records keep their order from `formats` |
| AbrSort.SortByAbrDesc | main.py:73 | the sorted list is a permutation of its input and is ordered by non-increasing `abr or 0` |
| AbrSort.Insert | main.py:73 | inserting one record adds exactly that record to the multiset of records |
| AbrSort.InsertKeepsOrder | main.py:73 | inserting into a descending list keeps it descending |
| AbrSort.SortIsStable | main.py:73 | for every bitrate, the records with that bitrate keep their original relative order (Python's sort is stable even with `reverse=True`) |
| AbrSort.SortedArrangementUnique | main.py:73 | two descending lists with the same equal-bitrate classes, each in the same order, are identical |
| AbrSort.StableArrangementIsSort | main.py:73 | any descending arrangement that keeps each equal-bitrate class in order is the sort's result |
| AbrSort.SortCharacterization | main.py:73 | a list is the sort's result if and only if it is descending and keeps each equal-bitrate class of the input in order |
| Catalogue.AudioArrangement | main.py:72-73 | the audio records in catalogue order: each audio-only record exactly as often as in `formats`, nothing else, non-increasing bitrate, ties in original order |
| Catalogue.AudioLabel | main.py:74 | the label is the id, then `" - "`, then decimal text without leading zeros that reads back as `abr or 0` (that is, `str(abr or 0)`), then `"kbps"`; splitting it at its first space gives back the id exactly when the id contains no space |
| Catalogue.AudioLabels | main.py:74 | labelling fails (the `KeyError`) exactly when some record lacks `format_id`; otherwise there is one label per record, in order |
| Catalogue.AudioCatalogue | main.py:71-74 | the audio catalogue fails exactly when some audio-only record of `formats` has no id; otherwise it has as many entries as the audio list and entry i labels record i of the arrangement |
| Heights.PresentHeights | main.py:75 | a height appears exactly when some record carries it and it is non-zero; missing and zero heights never appear |
| Heights.InsertDistinct | main.py:75 | adding a height to a strictly descending list keeps it strictly descending and adds exactly that value |
| Heights.DistinctDescending | main.py:75 | the sorted set is strictly descending and has exactly the values of its input |
| Heights.OfferedHeights | main.py:75 | each non-zero height that some record carries appears, nothing else appears, and the list is strictly descending, so no height appears twice |
| Decimal.NatToString | main.py:76 | `str(h)` is a non-empty digit string without a leading zero and without a space |
| Decimal.ParseNat | main.py:76 | reading decimal text succeeds exactly on non-empty digit strings |
| Decimal.ParseNatRoundTrip | main.py:76 | reading back `str(h)` gives `h` |
| Decimal.NatToStringInjective | main.py:76 | distinct heights get distinct labels |
| Catalogue.HeightLabels | main.py:76 | one label per height, in order; each label reads back as its height and survives the split at a space unchanged |
| Catalogue.ListFormats | main.py:67-76 | any media other than `"MP3"` yields the video list without failure |
| Catalogue.VideoCatalogue | main.py:75-76 | every video label reads back as a height some record offers; the heights strictly decrease, so none repeats; every offered height has its label |
| Catalogue.FirstToken | main.py:150 | the first field of the choice split on spaces is its longest space-free prefix |
| Catalogue.FirstTokenStopsAtSpace | main.py:150 | the split of a space-free prefix followed by a space returns that prefix |
| Progress.Total | main.py:83 | the total is never 0; it is `total_bytes` if truthy, else `total_bytes_estimate` if truthy, else 1 |
| Progress.Percent | main.py:85 | the percentage is the largest whole number p with `p * total <= downloaded * 100` |
| Progress.BarValue | main.py:91 | the bar value lies in [0, 100], never exceeds the percentage, and equals it or 100 |
| Progress.Hook | main.py:80-94 | a `downloading` report sets the bar to the capped floor percentage over the fallback total (`total_bytes`, else the estimate, else 1); a `finished` report shows the post-processing notice; any other status does nothing |
| Progress.BarFullIffComplete | main.py:83-91 | the bar reaches 100 exactly when the downloaded count reaches the total |
| Progress.PercentBoundedByTotal | main.py:85 | while the downloaded count is within the total, the percentage is at most 100 |
| Progress.BarMonotone | main.py:85-91 | with a fixed total, more downloaded bytes never lower the bar |
| Download.JoinPath | main.py:108 | (POSIX `os.path.join`) the output template starts with the scratch directory and ends with the file-name pattern; a `/` is added between them exactly when the directory is non-empty and does not end in `/` |
| Download.SelectorHeight | main.py:105 | a selector text read back as a height text rebuilds the same selector |
| Download.SelectorHeightRoundTrip | main.py:105 | the video selector gives back exactly the height text it was built from |
| Download.EngineOptionsFor | main.py:101-108 | playlists are off; the template lies in the scratch directory; MP3 passes the choice through as the format with an MP3 `FFmpegExtractAudio` step; video pins the chosen height exactly and merges to `mp4` |
| Download.PickOutput | main.py:111-117 | it fails with `"Downloaded file empty."` exactly when no entry has non-zero size; otherwise it delivers the contents and name of the first such entry in listing order |
| Seqs.FirstMatch | main.py:111-114 | the index found satisfies the condition (when inside the list) and no earlier index does |
| Seqs.FilterHead | main.py:111-114 | when the filter keeps anything, its first element is the element at the first index satisfying the condition |
| Download.DownloadMediaFile | main.py:106-119 | an engine failure becomes `"Error during download: "` plus its message; otherwise the result is the pick from the listing the engine left; a delivered file is always a non-empty entry of that listing |
| Download.VideoChoiceSelectsOfferedHeight | main.py:150 | choosing any video label passes it on unchanged; the resulting selector pins that label, which reads back as a height some record offers |
| Download.AudioChoiceSelectsItsFormat | main.py:150 | choosing audio label i selects a record of `formats` that is audio-only and has an id; when that id has no space, the engine is asked for exactly that id |

## Left out

- Page setup, CSS, forms, buttons and session state (main.py:8-48, 122-155) are presentation only. The choice decoding at main.py:150 is modelled.
- `fetch_video_info` (main.py:51-63) copies four fields out of the extractor's result. The extractor is a foreign library reached over the network.
- The `extract_info` and `download` calls of `yt_dlp` are foreign code and network I/O. The `formats` list is an input. The engine run is a function parameter that yields a failure message or the directory listing.
- `st.cache_data` memoisation is framework caching, not logic.
- `tempfile.TemporaryDirectory`, `os.listdir`, `os.path.getsize` and the file read are filesystem I/O. The scratch directory is a name parameter. The listing is a sequence of entries whose size is the length of their contents. Directory cleanup is not modelled.
- The progress hook closure in the option dictionary (main.py:101) is not a field of `EngineOptions`. The hook itself is `Progress.Hook`.
- The speed text in MiB/s, the total-size text and the ETA `time.strftime` text (main.py:86-90, 92) are floating-point display formatting.
- Absent keys and keys present with the value `None` are both `None` in the model's optional fields. The source treats them differently in two places. A record whose `format_id` is present but `None` is labelled `"None - ..."` (main.py:74), where the model reports the missing-id failure. A progress report whose `downloaded_bytes` is present but `None` makes the division raise (main.py:84-85), where the model reads it as 0.
- Download.JoinPath: models `os.path.join` as on POSIX, adding `/`. On Windows the source inserts `\` instead.
- Exceptions other than the missing `format_id` and the engine's failure are not modelled, for example a failing `listdir` or file read. The engine's message text is an input string.
- Progress.Percent: the source computes `int(downloaded / total * 100)` in floating point. The model uses the exact integer floor. Floating-point rounding can make the source's value one lower for some inputs.
- Progress.Total: `total_bytes_estimate` is a float in the source, usually not a whole number, because the engine computes it by true division. The model takes whole-byte totals only, so the estimate branch of the fallback is modelled for integer estimates.
- Catalogue.AudioLabel: bitrates and heights are integers in the model, and the label prints an integer bitrate as `128`. `yt_dlp` reports bitrates as floats, and the source prints the float's text, so any float bitrate, whole-number or not, is rendered differently (`128.0kbps`, `129.478kbps`). The model covers integer-valued bitrates only.

=== FILE: abr_sort.dfy ===
/** The ordering of the audio records: a stable sort into non-increasing
    bitrate order, with a missing bitrate counting as 0. Python keeps records with equal
    keys in their original order even with `reverse=True`. */
module AbrSort {
  import opened Seqs
  import opened Formats

  predicate SortedByAbrDesc(s: seq<Format>) {
    forall i, j :: 0 <= i < j < |s| ==> AbrKey(s[j]) <= AbrKey(s[i])
  }

  /** The records of `s` whose key is `k`, in their order in `s`. */
  function WithKey(s: seq<Format>, k: nat): seq<Format>
  {
    Filter((f: Format) => AbrKey(f) == k, s)
  }

  lemma WithKeyMembers(s: seq<Format>, k: nat, f: Format)
    ensures f in WithKey(s, k) <==> f in s && AbrKey(f) == k
  {
    FilterCounts((f: Format) => AbrKey(f) == k, s);
  }

  /** `t` holds every class of equal-key records of `s`, each in its order in `s`. */
  ghost predicate SameKeyClasses(t: seq<Format>, s: seq<Format>) {
    forall k :: WithKey(t, k) == WithKey(s, k)
  }

  /** Places `x` before the first record whose key is not larger than its own. */
  function Insert(x: Format, s: seq<Format>): (r: seq<Format>)
    ensures multiset(r) == multiset(s) + multiset{x}
  {
    if s == [] || AbrKey(s[0]) <= AbrKey(x) then [x] + s
    else
      assert s == [s[0]] + s[1..];
      [s[0]] + Insert(x, s[1..])
  }

  lemma {:induction false} InsertKeepsOrder(x: Format, s: seq<Format>)
    requires SortedByAbrDesc(s)
    ensures SortedByAbrDesc(Insert(x, s))
  {
    if s != [] && AbrKey(x) < AbrKey(s[0]) {
      var rest := Insert(x, s[1..]);
      InsertKeepsOrder(x, s[1..]);
      forall y | y in rest
        ensures AbrKey(y) <= AbrKey(s[0])
      {
        assert y in multiset(rest);
        if y != x {
          assert y in multiset(s[1..]);
          var i :| 0 <= i < |s[1..]| && s[1..][i] == y;
          assert s[i + 1] == y;
        }
      }
      assert Insert(x, s) == [s[0]] + rest;
      forall i, j | 0 <= i < j < |[s[0]] + rest|
        ensures AbrKey(([s[0]] + rest)[j]) <= AbrKey(([s[0]] + rest)[i])
      {
        if i == 0 {
          assert ([s[0]] + rest)[j] == rest[j - 1];
        }
      }
    }
  }

  function SortByAbrDesc(s: seq<Format>): (r: seq<Format>)
    ensures multiset(r) == multiset(s)
    ensures SortedByAbrDesc(r)
  {
    if s == [] then []
    else
      assert s == [s[0]] + s[1..];
      InsertKeepsOrder(s[0], SortByAbrDesc(s[1..]));
      Insert(s[0], SortByAbrDesc(s[1..]))
  }

  lemma {:induction false} InsertWithKey(x: Format, s: seq<Format>, k: nat)
    ensures WithKey(Insert(x, s), k)
            == if AbrKey(x) == k then [x] + WithKey(s, k) else WithKey(s, k)
  {
    if s == [] || AbrKey(s[0]) <= AbrKey(x) {
      assert ([x] + s)[1..] == s;
    } else {
      InsertWithKey(x, s[1..], k);
      assert ([s[0]] + Insert(x, s[1..]))[1..] == Insert(x, s[1..]);
    }
  }

  /** Stability: the sort leaves every class of equal-key records in its
      original relative order. */
  lemma {:induction false} SortIsStable(s: seq<Format>, k: nat)
    ensures WithKey(SortByAbrDesc(s), k) == WithKey(s, k)
  {
    if s != [] {
      SortIsStable(s[1..], k);
      InsertWithKey(s[0], SortByAbrDesc(s[1..]), k);
    }
  }

  lemma WithKeyOfHead(s: seq<Format>)
    requires s != []
    ensures WithKey(s, AbrKey(s[0])) == [s[0]] + WithKey(s[1..], AbrKey(s[0]))
  {
  }

  /** In a key-sorted non-empty sequence the head carries the largest key. */
  lemma HeadKeyIsMax(t: seq<Format>, f: Format)
    requires SortedByAbrDesc(t) && f in t
    ensures AbrKey(f) <= AbrKey(t[0])
  {
  }

  /** Key-sorted sequences with the same classes of equal-key records start
      with the same record. */
  lemma SameClassesSameHead(t: seq<Format>, u: seq<Format>)
    requires SortedByAbrDesc(t) && SortedByAbrDesc(u) && t != []
    requires SameKeyClasses(t, u)
    ensures u != [] && u[0] == t[0]
  {
    var k0 := AbrKey(t[0]);
    WithKeyMembers(t, k0, t[0]);
    WithKeyMembers(u, k0, t[0]);
    var m := AbrKey(u[0]);
    WithKeyMembers(u, m, u[0]);
    WithKeyMembers(t, m, u[0]);
    HeadKeyIsMax(t, u[0]);
    HeadKeyIsMax(u, t[0]);
    WithKeyOfHead(t);
    WithKeyOfHead(u);
    assert WithKey(t, k0)[0] == t[0];
    assert WithKey(u, k0)[0] == u[0];
  }

  /** Removing the common head keeps the classes of equal-key records equal. */
  lemma SameClassesSameTail(t: seq<Format>, u: seq<Format>, k: nat)
    requires t != [] && u != [] && t[0] == u[0]
    requires WithKey(t, k) == WithKey(u, k)
    ensures WithKey(t[1..], k) == WithKey(u[1..], k)
  {
    if AbrKey(t[0]) == k {
      WithKeyOfHead(t);
      WithKeyOfHead(u);
      assert WithKey(t[1..], k) == WithKey(t, k)[1..];
      assert WithKey(u[1..], k) == WithKey(u, k)[1..];
    } else {
      assert t == [t[0]] + t[1..];
      assert WithKey(t, k) == WithKey(t[1..], k);
      assert WithKey(u, k) == WithKey(u[1..], k);
    }
  }

  /** Two key-sorted sequences with the same classes of equal-key records
      are the same sequence. */
  lemma {:induction false} SortedArrangementUnique(t: seq<Format>, u: seq<Format>)
    requires SortedByAbrDesc(t) && SortedByAbrDesc(u)
    requires SameKeyClasses(t, u)
    ensures t == u
    decreases |t|
  {
    if t == [] {
      if u != [] {
        WithKeyMembers(u, AbrKey(u[0]), u[0]);
      }
    } else {
      SameClassesSameHead(t, u);
      forall k
        ensures WithKey(t[1..], k) == WithKey(u[1..], k)
      {
        SameClassesSameTail(t, u, k);
      }
      SortedArrangementUnique(t[1..], u[1..]);
      assert t == [t[0]] + t[1..];
      assert u == [u[0]] + u[1..];
    }
  }

  /** Any key-sorted arrangement that keeps every class of equal-key records
      of `s` in order is the sort's result. */
  lemma StableArrangementIsSort(s: seq<Format>, t: seq<Format>)
    requires SortedByAbrDesc(t)
    requires SameKeyClasses(t, s)
    ensures t == SortByAbrDesc(s)
  {
    var sorted := SortByAbrDesc(s);
    forall k
      ensures WithKey(t, k) == WithKey(sorted, k)
    {
      SortIsStable(s, k);
    }
    SortedArrangementUnique(t, sorted);
  }

  /** The sort's result is exactly the stable descending arrangement of its
      input: `t` is the result if and only if `t` is sorted by non-increasing
      key and keeps each class of equal-key records of `s` in order. */
  lemma SortCharacterization(s: seq<Format>, t: seq<Format>)
    ensures t == SortByAbrDesc(s)
            <==> SortedByAbrDesc(t) && SameKeyClasses(t, s)
  {
    if t == SortByAbrDesc(s) {
      forall k
        ensures WithKey(t, k) == WithKey(s, k)
      {
        SortIsStable(s, k);
      }
    } else if SortedByAbrDesc(t) && SameKeyClasses(t, s) {
      StableArrangementIsSort(s, t);
    }
  }
}

=== FILE: catalogue.dfy ===
/** `list_formats`: the quality options offered for a URL, and the decoding
    of a chosen option back into the value passed to the download. */
module Catalogue {
  import opened Wrappers
  import opened Seqs
  import opened Decimal
  import opened Formats
  import opened AbrSort
  import opened Heights

  /** `f['format_id']` raises `KeyError` on a record without an id. */
  datatype CatalogueError = MissingFormatId

  /** The media choice that selects the audio catalogue; any other value
      selects the video catalogue. */
  const AudioMedia: string := "MP3"

  /** The audio records of `fs`, in their original order. */
  function AudioFormats(fs: seq<Format>): (r: seq<Format>)
    ensures forall f :: multiset(r)[f] == if IsAudioOnly(f) then multiset(fs)[f] else 0
  {
    FilterCounts(IsAudioOnly, fs);
    Filter(IsAudioOnly, fs)
  }

  /** The audio list of a concatenation is the audio list of each part in
      turn, so the audio records keep the order they have in `formats`. */
  lemma AudioFormatsKeepOrder(a: seq<Format>, b: seq<Format>, f: Format)
    ensures AudioFormats(a + b) == AudioFormats(a) + AudioFormats(b)
    ensures AudioFormats([f]) == if IsAudioOnly(f) then [f] else []
  {
    FilterAppend(IsAudioOnly, a, b);
    FilterSingleton(IsAudioOnly, f);
  }

  /** The label `"<format_id> - <abr or 0>kbps"`: the id, the separator
      `" - "`, a decimal number that reads back as the bitrate (0 when it is
      missing), and `"kbps"`. Splitting it at its first space gives back the
      id exactly when the id contains no space. */
  function AudioLabel(id: string, f: Format): (r: string)
    ensures |r| >= |id| + 7
    ensures r[..|id|] == id && r[|id|..|id| + 3] == " - " && r[|r| - 4..] == "kbps"
    ensures ParseNat(r[|id| + 3..|r| - 4]) == Some(AbrKey(f))
    ensures |r| == |id| + 8 || r[|id| + 3] != '0'
    ensures FirstToken(r) == id <==> ' ' !in id
  {
    var digits := NatToString(AbrKey(f));
    var tail := " - " + digits + "kbps";
    var r := id + tail;
    FirstTokenStopsAtSpace(id, tail);
    ParseNatRoundTrip(AbrKey(f));
    assert r[|id| + 3..|r| - 4] == digits;
    assert id + " - " + digits + "kbps" == r;
    r
  }

  /** Labels the records of `sorted` in order; fails like the comprehension
      does when one of them has no id. */
  function AudioLabels(sorted: seq<Format>): (r: Result<seq<string>, CatalogueError>)
    ensures r.Success? <==> forall i :: 0 <= i < |sorted| ==> sorted[i].formatId.Some?
    ensures r.Success? ==> |r.value| == |sorted|
    ensures r.Success? ==>
      forall i :: 0 <= i < |sorted| ==> r.value[i] == AudioLabel(sorted[i].formatId.value, sorted[i])
  {
    if sorted == [] then Success([])
    else match sorted[0].formatId
      case None => Failure(MissingFormatId)
      case Some(id) =>
        match AudioLabels(sorted[1..])
        case Failure(e) => Failure(e)
        case Success(rest) =>
          assert forall i :: 1 <= i < |sorted| ==> sorted[i] == sorted[1..][i - 1];
          Success([AudioLabel(id, sorted[0])] + rest)
  }

  /** The video labels: each height as `str(h)`. A label has no space, so
      splitting it at a space hands the whole label on. */
  function HeightLabels(hs: seq<nat>): (r: seq<string>)
    ensures |r| == |hs|
    ensures forall i :: 0 <= i < |r| ==> FirstToken(r[i]) == r[i]
    ensures forall i :: 0 <= i < |hs| ==> r[i] == NatToString(hs[i])
    ensures forall i :: 0 <= i < |hs| ==> ParseNat(r[i]) == Some(hs[i])
  {
    if hs == [] then []
    else
      ParseNatRoundTrip(hs[0]);
      [NatToString(hs[0])] + HeightLabels(hs[1..])
  }

  /** The option list `list_formats(url, media)` returns for the extractor's
      `formats` list. */
  function ListFormats(fs: seq<Format>, media: string): (r: Result<seq<string>, CatalogueError>)
    ensures media != AudioMedia ==> r.Success?
  {
    if media == AudioMedia then AudioLabels(SortByAbrDesc(AudioFormats(fs)))
    else Success(HeightLabels(OfferedHeights(fs)))
  }

  /** The split stops at the first space after a space-free prefix. */
  lemma {:induction false} FirstTokenStopsAtSpace(a: string, b: string)
    requires b != [] && b[0] == ' '
    ensures ' ' !in a ==> FirstToken(a + b) == a
  {
    if ' ' in a {
    } else if a == [] {
      assert a + b == b;
    } else {
      assert (a + b)[1..] == a[1..] + b;
      FirstTokenStopsAtSpace(a[1..], b);
    }
  }

  /** The first field of the choice split on single spaces: the text before
      the first space, or all of it. */
  function FirstToken(choice: string): (r: string)
    ensures ' ' !in r
    ensures |r| <= |choice| && r == choice[..|r|]
    ensures |r| < |choice| ==> choice[|r|] == ' '
  {
    if choice == [] || choice[0] == ' ' then []
    else [choice[0]] + FirstToken(choice[1..])
  }

  /** The audio records of `fs` in the order the catalogue lists them: each
      audio-only record as often as it occurs in `fs` and nothing else, by
      non-increasing bitrate, ties in their original order. */
  function AudioArrangement(fs: seq<Format>): (r: seq<Format>)
    ensures forall f :: multiset(r)[f] == if IsAudioOnly(f) then multiset(fs)[f] else 0
    ensures SortedByAbrDesc(r)
    ensures SameKeyClasses(r, AudioFormats(fs))
  {
    var audio := AudioFormats(fs);
    var r := SortByAbrDesc(audio);
    SortCharacterization(audio, r);
    r
  }

  /** The audio catalogue fails exactly when some audio-only record has no id;
      otherwise it holds one label per record of the arrangement, in order. */
  lemma AudioCatalogue(fs: seq<Format>)
    ensures ListFormats(fs, AudioMedia).Success?
            <==> forall f :: f in fs && IsAudioOnly(f) ==> f.formatId.Some?
    ensures ListFormats(fs, AudioMedia).Success? ==>
      |ListFormats(fs, AudioMedia).value| == |AudioArrangement(fs)|
    ensures ListFormats(fs, AudioMedia).Success? ==>
      forall i :: 0 <= i < |AudioArrangement(fs)| ==>
        AudioArrangement(fs)[i].formatId.Some?
        && ListFormats(fs, AudioMedia).value[i]
           == AudioLabel(AudioArrangement(fs)[i].formatId.value, AudioArrangement(fs)[i])
  {
    var sorted := AudioArrangement(fs);
    var r := AudioLabels(sorted);
    assert ListFormats(fs, AudioMedia) == r;
    assert r.Success? <==> forall i :: 0 <= i < |sorted| ==> sorted[i].formatId.Some?;
    if r.Success? {
      forall f | f in fs && IsAudioOnly(f)
        ensures f.formatId.Some?
      {
        assert f in multiset(fs);
        assert f in multiset(sorted);
      }
    } else {
      var i :| 0 <= i < |sorted| && sorted[i].formatId.None?;
      assert sorted[i] in multiset(sorted);
      assert sorted[i] in multiset(fs);
    }
  }

  /** The video catalogue: every label reads back as a height some record
      offers, the heights strictly decrease (so none repeats), and every
      offered height has its label. */
  lemma VideoCatalogue(fs: seq<Format>, media: string)
    requires media != AudioMedia
    ensures ListFormats(fs, media).Success?
    ensures var labels := ListFormats(fs, media).value;
      && (forall i :: 0 <= i < |labels| ==>
            ParseNat(labels[i]).Some? && HeightOffered(fs, ParseNat(labels[i]).value))
      && (forall i, j :: 0 <= i < j < |labels| ==>
            ParseNat(labels[j]).value < ParseNat(labels[i]).value)
      && (forall h :: HeightOffered(fs, h) ==> NatToString(h) in labels)
  {
  }
}

=== FILE: decimal.dfy ===
/** Python's `str(n)` for a non-negative integer, and its inverse `int(s)`
    restricted to plain digit strings. */
module Decimal {
  import opened Wrappers

  predicate IsDigit(c: char) {
    '0' <= c <= '9'
  }

  function DigitChar(d: nat): (c: char)
    requires d < 10
    ensures IsDigit(c)
  {
    "0123456789"[d]
  }

  function DigitValue(c: char): (d: nat)
    requires IsDigit(c)
    ensures d < 10
  {
    (c as int - '0' as int) as nat
  }

  lemma DigitRoundTrip(d: nat)
    requires d < 10
    ensures DigitValue(DigitChar(d)) == d
  {
  }

  /** The decimal rendering of `n`, without sign or leading zeros, as `str(n)`. */
  function NatToString(n: nat): (s: string)
    ensures |s| >= 1
    ensures forall i :: 0 <= i < |s| ==> IsDigit(s[i])
    ensures |s| > 1 ==> s[0] != '0'
    ensures ' ' !in s
    decreases n
  {
    if n < 10 then [DigitChar(n)]
    else NatToString(n / 10) + [DigitChar(n % 10)]
  }

  /** Reads a non-empty string of decimal digits; anything else is `None`. */
  function ParseNat(s: string): (r: Option<nat>)
    ensures r.Some? <==> |s| >= 1 && forall i :: 0 <= i < |s| ==> IsDigit(s[i])
    decreases |s|
  {
    if |s| == 0 || !IsDigit(s[|s| - 1]) then None
    else if |s| == 1 then Some(DigitValue(s[0]))
    else
      match ParseNat(s[..|s| - 1])
      case None => None
      case Some(high) => Some(high * 10 + DigitValue(s[|s| - 1]))
  }

  /** Reading back a rendered number gives the number. */
  lemma {:induction false} ParseNatRoundTrip(n: nat)
    ensures ParseNat(NatToString(n)) == Some(n)
    decreases n
  {
    var s := NatToString(n);
    if n < 10 {
      DigitRoundTrip(n);
    } else {
      ParseNatRoundTrip(n / 10);
      DigitRoundTrip(n % 10);
      assert s[..|s| - 1] == NatToString(n / 10);
    }
  }

  /** Distinct numbers render as distinct strings. */
  lemma NatToStringInjective(m: nat, n: nat)
    ensures NatToString(m) == NatToString(n) <==> m == n
  {
    ParseNatRoundTrip(m);
    ParseNatRoundTrip(n);
  }
}

=== FILE: download.dfy ===
/** `download_media_file`: the engine options for the chosen media kind, the
    engine run against a scratch directory, and the choice of the file to
    hand back. */
module Download {
  import opened Wrappers
  import opened Seqs
  import opened Decimal
  import opened Formats
  import opened Catalogue

  newtype byte = b: int | 0 <= b < 256

  datatype PostProcessor = PostProcessor(key: string, preferredCodec: string)

  /** The engine option dictionary built before the run. */
  datatype EngineOptions = EngineOptions(
    noPlaylist: bool,
    format: string,
    postprocessors: seq<PostProcessor>,
    mergeOutputFormat: Option<string>,
    outputTemplate: string)

  /** One entry of the scratch directory after the run; its size is the
      length of its contents. */
  datatype FileEntry = FileEntry(name: string, contents: seq<byte>)

  /** What the download returns: the file's bytes and name, or a message. */
  datatype DownloadResult = Delivered(data: seq<byte>, fileName: string) | Failed(reason: string)

  const EmptyOutputMessage: string := "Downloaded file empty."
  const EngineErrorPrefix: string := "Error during download: "
  const OutputName: string := "%(title)s.%(ext)s"
  const VideoPrefix: string := "bestvideo[height="
  const VideoSuffix: string := "]+bestaudio/best"
  const ExtractMp3: PostProcessor := PostProcessor("FFmpegExtractAudio", "mp3")

  /** `os.path.join(dir, name)` for a relative `name`. */
  function JoinPath(dir: string, name: string): (p: string)
    ensures |p| >= |dir| + |name|
    ensures p[..|dir|] == dir && p[|p| - |name|..] == name
    ensures |p| == |dir| + |name| || (|p| == |dir| + 1 + |name| && p[|dir|] == '/')
    ensures |p| == |dir| + 1 + |name| <==> dir != [] && dir[|dir| - 1] != '/'
  {
    if dir == [] || dir[|dir| - 1] == '/' then dir + name else dir + "/" + name
  }

  /** The video format selector for a chosen height label. */
  function VideoSelector(selected: string): string {
    VideoPrefix + selected + VideoSuffix
  }

  /** Reads the height text back out of a video selector, if it is one. */
  function SelectorHeight(selector: string): (r: Option<string>)
    ensures r.Some? ==> VideoSelector(r.value) == selector
  {
    var lo, hi := |VideoPrefix|, |selector| - |VideoSuffix|;
    if lo <= hi && selector[..lo] == VideoPrefix && selector[hi..] == VideoSuffix
    then
      assert selector == selector[..lo] + selector[lo..hi] + selector[hi..];
      Some(selector[lo..hi])
    else None
  }

  /** The selector pins the height text it was built from: `height=` is an
      exact match on that text, not an upper bound. */
  lemma SelectorHeightRoundTrip(selected: string)
    ensures SelectorHeight(VideoSelector(selected)) == Some(selected)
  {
  }

  /** The options `download_media_file` gives the engine for `media_kind`,
      the decoded choice `selected` and the scratch directory. */
  function EngineOptionsFor(mediaKind: string, selected: string, scratchDir: string): (o: EngineOptions)
    ensures o.noPlaylist
    ensures o.outputTemplate == JoinPath(scratchDir, OutputName)
    ensures mediaKind == AudioMedia ==>
      o.format == selected && o.postprocessors == [ExtractMp3] && o.mergeOutputFormat.None?
    ensures mediaKind != AudioMedia ==>
      SelectorHeight(o.format) == Some(selected)
      && o.postprocessors == [] && o.mergeOutputFormat == Some("mp4")
  {
    var template := JoinPath(scratchDir, OutputName);
    if mediaKind == AudioMedia then
      EngineOptions(true, selected, [ExtractMp3], None, template)
    else
      SelectorHeightRoundTrip(selected);
      EngineOptions(true, VideoSelector(selected), [], Some("mp4"), template)
  }

  predicate NonEmpty(e: FileEntry) {
    |e.contents| > 0
  }

  /** The deliverable: the first entry of the listing with non-zero size, or
      the fixed failure when there is none. */
  function PickOutput(listing: seq<FileEntry>): (r: DownloadResult)
    ensures r.Failed? <==> forall i :: 0 <= i < |listing| ==> !NonEmpty(listing[i])
    ensures r.Failed? ==> r.reason == EmptyOutputMessage
    ensures r.Delivered? ==>
      exists i :: 0 <= i < |listing| && NonEmpty(listing[i])
                  && (forall j :: 0 <= j < i ==> !NonEmpty(listing[j]))
                  && r == Delivered(listing[i].contents, listing[i].name)
  {
    var files := Filter(NonEmpty, listing);
    FilterCounts(NonEmpty, listing);
    if files == [] then
      assert forall i :: 0 <= i < |listing| ==> listing[i] !in files;
      Failed(EmptyOutputMessage)
    else
      FilterHead(NonEmpty, listing);
      var k := FirstMatch(NonEmpty, listing);
      assert files[0] == listing[k];
      Delivered(files[0].contents, files[0].name)
  }

  /** One call of `download_media_file`. The engine stands for the download
      and post-processing run: given the options it either fails with a
      message or leaves a directory listing. */
  function DownloadMediaFile(
    mediaKind: string, selected: string, scratchDir: string,
    engine: EngineOptions -> Result<seq<FileEntry>, string>): (r: DownloadResult)
    ensures var run := engine(EngineOptionsFor(mediaKind, selected, scratchDir));
      && (run.Failure? ==> r == Failed(EngineErrorPrefix + run.error))
      && (run.Success? ==> r == PickOutput(run.value))
      && (r.Delivered? ==>
            run.Success? && exists e :: e in run.value && NonEmpty(e) && r == Delivered(e.contents, e.name))
  {
    match engine(EngineOptionsFor(mediaKind, selected, scratchDir))
    case Failure(message) => Failed(EngineErrorPrefix + message)
    case Success(listing) => PickOutput(listing)
  }

  /** Picking a video option end to end: the label decodes to itself, and the
      selector built from it pins a height some record offers. */
  lemma VideoChoiceSelectsOfferedHeight(fs: seq<Format>, media: string, choice: string, scratchDir: string)
    requires media != AudioMedia
    requires ListFormats(fs, media).Success? && choice in ListFormats(fs, media).value
    ensures var o := EngineOptionsFor(media, FirstToken(choice), scratchDir);
      && SelectorHeight(o.format) == Some(choice)
      && ParseNat(choice).Some? && HeightOffered(fs, ParseNat(choice).value)
  {
  }

  /** Picking an audio option end to end: when the record's id has no space,
      the engine is asked for exactly the id of the audio-only record that
      produced the label. */
  lemma AudioChoiceSelectsItsFormat(fs: seq<Format>, i: nat, scratchDir: string)
    requires ListFormats(fs, AudioMedia).Success?
    requires i < |ListFormats(fs, AudioMedia).value|
    ensures var f := AudioArrangement(fs)[i];
      && f in fs && IsAudioOnly(f) && f.formatId.Some?
      && (' ' !in f.formatId.value ==>
            EngineOptionsFor(AudioMedia, FirstToken(ListFormats(fs, AudioMedia).value[i]), scratchDir).format
            == f.formatId.value)
  {
  }
}

=== FILE: formats.dfy ===
/** One entry of the `formats` list that the extractor returns for a URL.
    Every field may be absent from the dictionary. */
module Formats {
  import opened Wrappers

  datatype Format = Format(
    formatId: Option<string>,
    acodec: Option<string>,
    vcodec: Option<string>,
    abr: Option<nat>,    // average audio bitrate in kbit/s
    height: Option<nat>) // video frame height in pixels

  /** An audio-only stream: its audio codec is not the literal "none" (an
      absent codec passes) and its video codec is exactly "none". */
  predicate IsAudioOnly(f: Format) {
    f.acodec != Some("none") && f.vcodec == Some("none")
  }

  /** The sort key `abr or 0`: a missing (or zero) bitrate ranks as 0. */
  function AbrKey(f: Format): nat {
    f.abr.GetOr(0)
  }

  /** `h` is a truthy height carried by some record of `fs`. */
  ghost predicate HeightOffered(fs: seq<Format>, h: nat) {
    h != 0 && exists f :: f in fs && f.height == Some(h)
  }
}

=== FILE: heights.dfy ===
/** The video choices: the set of heights that are present and non-zero,
    sorted largest first. */
module Heights {
  import opened Formats

  predicate StrictlyDescending(s: seq<nat>) {
    forall i, j :: 0 <= i < j < |s| ==> s[j] < s[i]
  }

  /** The truthy heights of `fs`, in record order and with repetitions. */
  function PresentHeights(fs: seq<Format>): (hs: seq<nat>)
    ensures forall h :: h in hs <==> HeightOffered(fs, h)
  {
    if fs == [] then []
    else
      assert forall f :: f in fs <==> f == fs[0] || f in fs[1..];
      var f := fs[0];
      (if f.height.Some? && f.height.value != 0 then [f.height.value] else [])
      + PresentHeights(fs[1..])
  }

  /** Adds `h` to a strictly descending sequence unless it is already there. */
  function InsertDistinct(h: nat, s: seq<nat>): (r: seq<nat>)
    requires StrictlyDescending(s)
    ensures StrictlyDescending(r)
    ensures forall x :: x in r <==> x == h || x in s
    ensures r != [] && s != [] ==> r[0] == if h > s[0] then h else s[0]
  {
    if s == [] || h > s[0] then [h] + s
    else if h == s[0] then s
    else [s[0]] + InsertDistinct(h, s[1..])
  }

  function DistinctDescending(hs: seq<nat>): (r: seq<nat>)
    ensures StrictlyDescending(r)
    ensures forall x :: x in r <==> x in hs
  {
    if hs == [] then []
    else
      assert forall x :: x in hs <==> x == hs[0] || x in hs[1..];
      InsertDistinct(hs[0], DistinctDescending(hs[1..]))
  }

  /** The video height choices, as numbers: each offered height once, largest first. */
  function OfferedHeights(fs: seq<Format>): (r: seq<nat>)
    ensures StrictlyDescending(r)
    ensures forall h :: h in r <==> HeightOffered(fs, h)
  {
    DistinctDescending(PresentHeights(fs))
  }
}

=== FILE: progress.dfy ===
/** The progress hook that the download engine calls with a status dictionary
    while it runs: the inner `hook` of `create_progress_hook`. */
module Progress {
  import opened Wrappers

  /** The fields of the engine's status dictionary the hook reads as numbers. */
  datatype StatusReport = StatusReport(
    status: Option<string>,
    totalBytes: Option<nat>,
    totalBytesEstimate: Option<nat>,
    downloadedBytes: Option<nat>)

  /** What one call of the hook shows: a bar value with the percentage and
      total it came from, a status line, or nothing. */
  datatype HookEffect =
    | ShowProgress(bar: nat, percent: nat, total: nat)
    | ShowText(text: string)
    | NoEffect

  const PostProcessingNotice: string := "Download complete, now post-processing..."

  /** Python truthiness of an optional count: present and non-zero. */
  predicate Truthy(o: Option<nat>) {
    o.Some? && o.value != 0
  }

  /** The total byte count, falling back from the exact total to the
      estimate to 1: never zero, and the first truthy value of that chain. */
  function Total(d: StatusReport): (t: nat)
    ensures t >= 1
    ensures Truthy(d.totalBytes) ==> t == d.totalBytes.value
    ensures !Truthy(d.totalBytes) && Truthy(d.totalBytesEstimate) ==> t == d.totalBytesEstimate.value
    ensures !Truthy(d.totalBytes) && !Truthy(d.totalBytesEstimate) ==> t == 1
  {
    if Truthy(d.totalBytes) then d.totalBytes.value
    else if Truthy(d.totalBytesEstimate) then d.totalBytesEstimate.value
    else 1
  }

  /** The downloaded byte count; an absent count reads as 0. */
  function Downloaded(d: StatusReport): nat {
    d.downloadedBytes.GetOr(0)
  }

  /** The whole-number percentage: the largest `p` with `p * total` not
      above `downloaded * 100`. */
  function Percent(downloaded: nat, total: nat): (p: nat)
    requires total >= 1
    ensures p * total <= downloaded * 100 < (p + 1) * total
  {
    (downloaded * 100) / total
  }

  /** The value the progress bar is set to: the percentage capped at 100. */
  function BarValue(p: nat): (b: nat)
    ensures b <= 100 && b <= p
    ensures b == p || b == 100
  {
    if p < 100 then p else 100
  }

  /** One call of the hook on the status dictionary `d`. */
  function Hook(d: StatusReport): (e: HookEffect)
    ensures e.ShowProgress? <==> d.status == Some("downloading")
    ensures e.ShowProgress? ==>
      && e.total == Total(d)
      && e.percent * e.total <= Downloaded(d) * 100 < (e.percent + 1) * e.total
      && e.bar == BarValue(e.percent)
    ensures e.ShowText? <==> d.status == Some("finished")
    ensures e.ShowText? ==> e.text == PostProcessingNotice
  {
    if d.status == Some("downloading") then
      var total := Total(d);
      var pct := Percent(Downloaded(d), total);
      ShowProgress(BarValue(pct), pct, total)
    else if d.status == Some("finished") then ShowText(PostProcessingNotice)
    else NoEffect
  }

  /** The bar is full exactly when the downloaded count has reached the total. */
  lemma BarFullIffComplete(downloaded: nat, total: nat)
    requires total >= 1
    ensures BarValue(Percent(downloaded, total)) == 100 <==> downloaded >= total
  {
  }

  /** The percentage never exceeds 100 while the count stays within the total:
      the clamp only bites when an estimated total is overtaken. */
  lemma PercentBoundedByTotal(downloaded: nat, total: nat)
    requires total >= 1 && downloaded <= total
    ensures Percent(downloaded, total) <= 100
  {
  }

  /** More bytes never move the bar back. */
  lemma BarMonotone(d1: nat, d2: nat, total: nat)
    requires total >= 1 && d1 <= d2
    ensures BarValue(Percent(d1, total)) <= BarValue(Percent(d2, total))
  {
    var p1, p2 := Percent(d1, total), Percent(d2, total);
    if p2 < p1 {
      MulLeft(total, p2 + 1, p1);
    }
  }

  lemma MulLeft(t: nat, a: nat, b: nat)
    requires a <= b
    ensures a * t <= b * t
  {
  }
}

=== FILE: seqs.dfy ===
/** Generic sequence helpers: the list-comprehension filter `[x for x in s if p(x)]`. */
module Seqs {

  /** The elements of `s` that satisfy `p`, in their original order. */
  function Filter<T(!new)>(p: T -> bool, s: seq<T>): (r: seq<T>)
    ensures |r| <= |s|
  {
    if s == [] then []
    else (if p(s[0]) then [s[0]] else []) + Filter(p, s[1..])
  }

  /** The filter keeps each element satisfying `p` exactly as often as it
      occurs, and no other element. */
  lemma {:induction false} FilterCounts<T(!new)>(p: T -> bool, s: seq<T>)
    ensures forall x :: multiset(Filter(p, s))[x] == if p(x) then multiset(s)[x] else 0
    ensures forall x :: x in Filter(p, s) <==> x in s && p(x)
  {
    if s != [] {
      FilterCounts(p, s[1..]);
      assert s == [s[0]] + s[1..];
    }
  }

  /** One step of the filter: the first element is kept or skipped. */
  lemma FilterStep<T(!new)>(p: T -> bool, s: seq<T>)
    requires s != []
    ensures p(s[0]) ==> Filter(p, s) == [s[0]] + Filter(p, s[1..])
    ensures !p(s[0]) ==> Filter(p, s) == Filter(p, s[1..])
  {
  }

  /** Filtering a single element keeps it exactly when it satisfies `p`. */
  lemma FilterSingleton<T(!new)>(p: T -> bool, x: T)
    ensures Filter(p, [x]) == if p(x) then [x] else []
  {
  }

  /** Filtering distributes over concatenation; with the single-element case
      this fixes the filter as the one that keeps the input order. */
  lemma {:induction false} FilterAppend<T(!new)>(p: T -> bool, a: seq<T>, b: seq<T>)
    ensures Filter(p, a + b) == Filter(p, a) + Filter(p, b)
  {
    if a == [] {
      assert a + b == b;
    } else {
      FilterStep(p, a);
      FilterStep(p, a + b);
      assert (a + b)[0] == a[0];
      assert (a + b)[1..] == a[1..] + b;
      FilterAppend(p, a[1..], b);
    }
  }

  /** The index of the first element of `s` that satisfies `p`, or `|s|`
      when there is none. */
  function FirstMatch<T>(p: T -> bool, s: seq<T>): (i: nat)
    ensures i <= |s|
    ensures i < |s| ==> p(s[i])
    ensures forall j :: 0 <= j < i ==> !p(s[j])
  {
    if s == [] then 0
    else if p(s[0]) then 0
    else 1 + FirstMatch(p, s[1..])
  }

  /** The first element kept by a filter is the element at the first index
      that satisfies the predicate. */
  lemma {:induction false} FilterHead<T(!new)>(p: T -> bool, s: seq<T>)
    requires Filter(p, s) != []
    ensures FirstMatch(p, s) < |s| && Filter(p, s)[0] == s[FirstMatch(p, s)]
  {
    FilterStep(p, s);
    if !p(s[0]) {
      FilterHead(p, s[1..]);
    }
  }
}

=== FILE: wrappers.dfy ===
/** Optional values and success/failure results, standing in for Python's
    `None`-able dictionary lookups and for exceptions that end an operation. */
module Wrappers {

  /** A value that may be missing, as `dict.get` returns `None` for an absent key. */
  datatype Option<T> = None | Some(value: T) {

    /** The value, or `default` when it is missing. */
    function GetOr(default: T): T {
      match this
      case Some(v) => v
      case None => default
    }
  }

  /** The outcome of an operation that may raise instead of returning. */
  datatype Result<T, E> = Success(value: T) | Failure(error: E)
}
